=== FILE: README.md ===
# llvm-isel-fuzzer harness, modelled in Dafny

`llvm-isel-fuzzer` is a libFuzzer harness for LLVM's instruction selection.
libFuzzer calls it through three entry points: `LLVMFuzzerInitialize` builds a
target machine and an IR mutator from the command line;
`LLVMFuzzerCustomMutator` decodes a bitcode buffer (or starts from an empty
module), mutates it, and writes the new bitcode back if it fits in the size
budget; `LLVMFuzzerTestOneInput` decodes and verifies a buffer, retargets the
module and runs the code-generation pipeline, where a fatal LLVM error aborts
the process so that libFuzzer reports a crash.

The model keeps the harness's own decision logic and treats every LLVM
library it calls as an arbitrary function. `Llvm.Collaborators` holds those
functions: the bitcode reader and writer, `verifyModule`, the mutator, the
pipeline run, `Triple::normalize`, the command-line parser (which may end
the process), the target lookup (which also hands back the triple it may have
rewritten), the CPU and feature strings, and the data layout. Every property
below holds for every behaviour of those libraries that these function
signatures can express. Where a library can do more, "## Left out" says so.
`Harness.CustomMutator` and `Harness.TestOneInput` also return their calls to
the bitcode reader and writer, the verifier, the mutator and the pipeline, in
order. "Never decodes" and "never runs the pipeline" are statements about
that list. Their uses of `Triple::normalize` and the data layout are not
recorded in it.

Modules, one per part of the harness:

- `Wrappers`: `Option` and `Result`.
- `Llvm`: bytes, IR modules, the target machine, the collaborator functions,
  and the `Call` record of what the harness asked LLVM to do.
- `WriteBack`: `writeModule`, as a pure function on sequences and as an
  in-place copy into an array.
- `CommandLine`: `parseCLOptsAfterDashDash`, as the two loops of the harness and as
  a reference definition.
- `Initialization`: the triple, target and `-O` checks of
  `LLVMFuzzerInitialize`, and the process-wide context it builds.
- `Harness`: `LLVMFuzzerCustomMutator` and `LLVMFuzzerTestOneInput`.

The code and its description differ in one place, and the model follows
the code. The comment on `parseCLOptsAfterDashDash` says arguments before
`--` are ignored. The code instead looks for the literal
`-ignore_remaining_args=1`, and `--` is skipped like any other libFuzzer flag
(`CommandLine.DashDashIsNotTheSeparator`).

Only the first `-ignore_remaining_args=1` is consumed. A later one reaches
the option parser (`CommandLine.RepeatedMarkerIsKept`).

## Model

| member | source | states |
|---|---|---|
| WriteBack.WriteModule | tools/llvm-isel-fuzzer/llvm-isel-fuzzer.cpp:69-79 | An encoding longer than the budget gives size 0 and leaves the buffer unchanged. Otherwise the size is the encoding's length, which is at most the budget. The buffer's prefix of that length is the encoding, and every later byte is unchanged. |
| WriteBack.WriteModuleInPlace | tools/llvm-isel-fuzzer/llvm-isel-fuzzer.cpp:75-78 | Copying into an array in place reports a size within the budget. It leaves the array exactly as the pure write-back describes: the prefix is overwritten and the rest is untouched. |
| WriteBack.WrittenPrefixIsEncoding | tools/llvm-isel-fuzzer/llvm-isel-fuzzer.cpp:75-78 | The reported size is positive exactly when a non-empty encoding fits. In that case the written prefix reads back as the encoding. |
| WriteBack.WriteModuleUnique | tools/llvm-isel-fuzzer/llvm-isel-fuzzer.cpp:77-78 | Any buffer with the encoding as its prefix and the old bytes after it is the one written, so the write-back contract fully determines the buffer. |
| CommandLine.MarkerIndex | tools/llvm-isel-fuzzer/llvm-isel-fuzzer.cpp:141-144 | The scan finds the first position holding `-ignore_remaining_args=1`, with no marker before it. If it finds none, no position in the range holds the marker. |
| CommandLine.KeptArgs | tools/llvm-isel-fuzzer/llvm-isel-fuzzer.cpp:138-146 | The kept list starts with `argv[0]` and is never longer than `argv`. |
| CommandLine.ParseCLOptsAfterDashDash | tools/llvm-isel-fuzzer/llvm-isel-fuzzer.cpp:137-148 | The two loops hand the option parser `argv[0]` followed by exactly the arguments after the first marker, or `argv[0]` alone when there is no marker. The list is never longer than `argv`. |
| CommandLine.KeptArgsWithoutMarker | tools/llvm-isel-fuzzer/llvm-isel-fuzzer.cpp:141-146 | With no marker after the program name, only `argv[0]` survives. |
| CommandLine.KeptArgsAfterFirstMarker | tools/llvm-isel-fuzzer/llvm-isel-fuzzer.cpp:141-146 | If the first marker is at k, the kept list is `[argv[0]] + argv[k+1..]`, which has length argc - k. Neither the earlier flags nor that marker are kept. |
| CommandLine.KeptArgsIsSuffix | tools/llvm-isel-fuzzer/llvm-isel-fuzzer.cpp:138-146 | The kept list is always `argv[0]` followed by some suffix of `argv`, in the original order. |
| CommandLine.RepeatedMarkerIsKept | tools/llvm-isel-fuzzer/llvm-isel-fuzzer.cpp:141-146 | Let the first marker be at k and any later marker at j. Then the later marker is passed on to the option parser, at position j - k of the kept list. |
| CommandLine.DashDashIsNotTheSeparator | tools/llvm-isel-fuzzer/llvm-isel-fuzzer.cpp:136-144 | For any argument list with `--` after the program name and before the last argument, and no marker, only `argv[0]` is kept. That differs from keeping the arguments after `--`, as the comment describes. |
| Initialization.ParseOptLevel | tools/llvm-isel-fuzzer/llvm-isel-fuzzer.cpp:188-198 | The `-O` character is accepted exactly when it is unset (`' '`) or a digit 0-3. A digit selects the level whose flag it is, and unset selects Default. |
| Initialization.OptLevelRoundTrip | tools/llvm-isel-fuzzer/llvm-isel-fuzzer.cpp:193-197 | Each level's digit flag is accepted and reads back as that level: `'0'` None, `'1'` Less, `'2'` Default, `'3'` Aggressive. |
| Initialization.OnlyUnsetAliasesO2 | tools/llvm-isel-fuzzer/llvm-isel-fuzzer.cpp:193-196 | Two different accepted characters select the same level only when they are `' '` and `'2'`. |
| Initialization.Initialize | tools/llvm-isel-fuzzer/llvm-isel-fuzzer.cpp:158-212 | If the option parser ends the process, initialization ends with the parser's exit code. Otherwise an empty triple fails with status 1. So do a failed target lookup and an invalid `-O` character, checked in that order. Anything else succeeds with status 0. The target machine then holds the looked-up target and the triple as the lookup left it, with the `-march` arch applied. It also holds the `getCPUStr` and `getFeaturesStr` results, the parsed level and the matching data layout. The mutator has the seven-type catalog with the injector first, and the fatal-error handler is installed. |
| Initialization.EngineFlagsIgnored | tools/llvm-isel-fuzzer/llvm-isel-fuzzer.cpp:137-167 | libFuzzer flags placed before the marker do not change the result of initialization. |
| Harness.Retarget | tools/llvm-isel-fuzzer/llvm-isel-fuzzer.cpp:121-123 | The module given to the pipeline has the target machine's triple, normalized again, and its data layout. Its name and contents are those of the decoded module. |
| Harness.Accepted | tools/llvm-isel-fuzzer/llvm-isel-fuzzer.cpp:110-119 | The reject gate passes inputs longer than one byte that decode to a module the verifier accepts. Every such input can also be mutated without a decode error. |
| Harness.TestOneInput | tools/llvm-isel-fuzzer/llvm-isel-fuzzer.cpp:109-134 | It needs the fatal-error handler installed. An input of size at most 1 returns 0 and calls nothing. Any other input is decoded first. It returns 1 without running the pipeline exactly when decoding fails or the verifier reports a broken module. Otherwise the last call runs the pipeline on the decoded module, retargeted to the target machine's normalized triple and data layout. The run returns 0 when the pipeline finishes. When the pipeline reports a fatal error, the run escalates with that error's message. Only a pipeline run escalates. |
| Harness.PipelineGate | tools/llvm-isel-fuzzer/llvm-isel-fuzzer.cpp:115-131 | The pipeline runs if and only if the input passes the reject gate. No call before the last one runs it. |
| Harness.MutationInput | tools/llvm-isel-fuzzer/llvm-isel-fuzzer.cpp:97-102 | An input of at most one byte always gives a module to mutate: the empty module `"M"`. A longer input gives the decoded module, or nothing when it does not decode. |
| Harness.CustomMutator | tools/llvm-isel-fuzzer/llvm-isel-fuzzer.cpp:94-107 | For size at most 1, an empty module `"M"` is mutated and nothing is decoded. Larger inputs are decoded first, and an unreadable one is reported as an error. The reported size and the buffer are exactly the write-back of the mutant's encoding: a size within `MaxSize`, with the buffer unchanged when the size is 0. The last call encodes the mutant. |
| Harness.MutantReachesPipeline | tools/llvm-isel-fuzzer/llvm-isel-fuzzer.cpp:94-133 | Suppose a mutant is written back with size above 1, the bitcode writer and reader round-trip it, and the verifier accepts it. Then running it through TestOneInput reaches the pipeline with that mutant, retargeted. |
| Harness.BrokenMutantIsRejected | tools/llvm-isel-fuzzer/llvm-isel-fuzzer.cpp:104-119 | The mutate path never verifies. A broken mutant that round-trips is still written back, and running it through TestOneInput returns 1 without reaching the pipeline. |

## Left out

- Bitcode reading and writing, `verifyModule`, `IRMutator` with its injector and deleter strategies, the target registry, `TargetMachine` construction and the pass manager: these are LLVM library code. They appear only as the arbitrary functions in `Llvm.Collaborators`.
- The type catalog's floating-point entries are tags only. No IR types carry semantics here.
- The `errs()` and `dbgs()` diagnostics and `EnableDebugBuffering`: output only, with no effect on results.
- The `InitializeAll*` calls: they fill the target registry. Their effect is part of what the `lookupTarget` collaborator answers.
- Crashes that bypass the fatal-error handler are not described: an `assert` or `llvm_unreachable` that aborts directly, a signal such as a segmentation fault, or a collaborator that never finishes. This holds for every collaborator, on both entry points. `Escalated` covers only a fatal error the pipeline reports through the installed handler. These crashes are what the harness exists to surface, but they come from inside LLVM, and the model treats LLVM as total functions.
- The fatal-error handler's `abort()`: a pipeline fatal error becomes the `Escalated` completion. Only the pipeline run can produce it. The model does not describe LLVM fatal errors raised inside decode, `verifyModule`, mutate or encode.
- The null dereference in `LLVMFuzzerCustomMutator` when an input larger than one byte does not decode: undefined behaviour in the source. The model returns `Failure(UnreadableInput)` instead.
- `cl::opt` parsing and the global `TM` and `Mutator` objects: the parser is the `parseOptions` collaborator, and the globals are the `HarnessContext` value returned by initialization. The parser's early exit on `-help` or a bad option is the `Exited` result. Its printed messages are left out.
- Initialization.Initialize: requires at least one argument, the program name. With argc 0, `argv[0]` is the null pointer that ends the argument array. The harness would then pass a null program name to the option parser and to its diagnostics. libFuzzer always passes the program name.
- `getCPUStr` and `getFeaturesStr` read the host's CPU and features for `-mcpu=native`. The model treats them as the `cpuStr` and `featuresStr` collaborators, so the host is not described.
- The relocation model, the code model and `InitTargetOptionsFromCodeGenFlags`: these are passed to `createTargetMachine` untouched and are not part of `TargetMachine` here.
- The `assert(TM)` after `createTargetMachine`: building the target machine always succeeds in the model.
- The buffer-capacity contract: `WriteBack.WriteModule` and `Harness.CustomMutator` require the buffer to hold at least `MaxSize` bytes. libFuzzer provides this, and the `memcpy` in `writeModule` relies on it.

=== FILE: command_line.dfy ===
/** `parseCLOptsAfterDashDash`: choose the arguments the harness's own option
    parser sees. libFuzzer passes its own flags first; the harness keeps the
    program name and whatever follows the first `-ignore_remaining_args=1`. */
module CommandLine {
  import opened Wrappers

  /** The argument that separates libFuzzer's flags from the harness's. */
  const Marker: string := "-ignore_remaining_args=1"

  /** No argument in `argv[lo..hi]` is the marker. */
  predicate NoMarkerIn(argv: seq<string>, lo: nat, hi: nat)
    requires lo <= hi <= |argv|
  {
    forall j :: lo <= j < hi ==> argv[j] != Marker
  }

  /** The first position at or after `from` that holds the marker. */
  function MarkerIndex(argv: seq<string>, from: nat): (r: Option<nat>)
    requires from <= |argv|
    ensures r.Some? ==> from <= r.value < |argv| && argv[r.value] == Marker && NoMarkerIn(argv, from, r.value)
    ensures r.None? ==> NoMarkerIn(argv, from, |argv|)
    decreases |argv| - from
  {
    if from == |argv| then None
    else if argv[from] == Marker then Some(from)
    else MarkerIndex(argv, from + 1)
  }

  /** The argument list handed to the option parser: the program name, then
      everything after the first marker past it, or nothing else when there
      is no marker. */
  function KeptArgs(argv: seq<string>): (r: seq<string>)
    requires |argv| >= 1
    ensures 1 <= |r| <= |argv| && r[0] == argv[0]
  {
    match MarkerIndex(argv, 1)
    case Some(k) => [argv[0]] + argv[k + 1..]
    case None => [argv[0]]
  }

  /** The two scanning loops of the harness: the first skips arguments up to
      and including the first marker, the second copies the rest. */
  method ParseCLOptsAfterDashDash(argv: seq<string>) returns (clArgs: seq<string>)
    requires |argv| >= 1
    ensures clArgs == KeptArgs(argv)
    ensures |clArgs| <= |argv|
  {
    clArgs := [argv[0]];
    var i := 1;
    while i < |argv|
      invariant 1 <= i <= |argv|
      invariant NoMarkerIn(argv, 1, i)
    {
      var arg := argv[i];
      i := i + 1;
      if arg == Marker {
        break;
      }
    }
    ghost var start := i;
    assert start == |argv| || (argv[start - 1] == Marker && NoMarkerIn(argv, 1, start - 1));
    while i < |argv|
      invariant start <= i <= |argv|
      invariant clArgs == [argv[0]] + argv[start..i]
    {
      clArgs := clArgs + [argv[i]];
      i := i + 1;
    }
    assert argv[start..] == argv[start..i];
  }

  /** Without a marker after the program name only the program name reaches
      the option parser. */
  lemma KeptArgsWithoutMarker(argv: seq<string>)
    requires |argv| >= 1
    requires forall j :: 1 <= j < |argv| ==> argv[j] != Marker
    ensures KeptArgs(argv) == [argv[0]]
  {
  }

  /** With the first marker after the program name at `k`, the parser sees
      the program name followed by exactly the arguments after `k`; neither
      libFuzzer's flags before it nor that marker are kept. */
  lemma KeptArgsAfterFirstMarker(argv: seq<string>, k: nat)
    requires 1 <= k < |argv| && argv[k] == Marker
    requires forall j :: 1 <= j < k ==> argv[j] != Marker
    ensures KeptArgs(argv) == [argv[0]] + argv[k + 1..]
    ensures |KeptArgs(argv)| == |argv| - k
  {
  }

  /** The arguments kept are the arguments, in order, of a suffix of `argv`
      after the program name, so the list never grows. */
  lemma KeptArgsIsSuffix(argv: seq<string>)
    requires |argv| >= 1
    ensures exists s :: 1 <= s <= |argv| && KeptArgs(argv) == [argv[0]] + argv[s..]
  {
    match MarkerIndex(argv, 1)
    case Some(k) =>
      assert KeptArgs(argv) == [argv[0]] + argv[k + 1..];
    case None =>
      assert KeptArgs(argv) == [argv[0]] + argv[|argv|..];
  }

  /** Only the first marker is consumed: any later marker, at `j`, reaches
      the option parser, at position `j - k` of the kept list. */
  lemma RepeatedMarkerIsKept(argv: seq<string>, k: nat, j: nat)
    requires 1 <= k < j < |argv|
    requires argv[k] == Marker && argv[j] == Marker
    requires forall i :: 1 <= i < k ==> argv[i] != Marker
    ensures j - k < |KeptArgs(argv)| && KeptArgs(argv)[j - k] == Marker
  {
    KeptArgsAfterFirstMarker(argv, k);
  }

  /** The marker is matched literally. `--`, the separator the comment on
      `parseCLOptsAfterDashDash` names, is passed over like any other
      libFuzzer flag: with no marker, the options after a `--` at `d` are
      not kept. */
  lemma DashDashIsNotTheSeparator(argv: seq<string>, d: nat)
    requires 1 <= d < |argv| - 1 && argv[d] == "--"
    requires forall i :: 1 <= i < |argv| ==> argv[i] != Marker
    ensures KeptArgs(argv) == [argv[0]]
    ensures KeptArgs(argv) != [argv[0]] + argv[d + 1..]
  {
    KeptArgsWithoutMarker(argv);
    assert |[argv[0]] + argv[d + 1..]| >= 2;
  }
}

=== FILE: harness.dfy ===
/** The two libFuzzer entry points: `LLVMFuzzerCustomMutator` (decode, mutate,
    write back within the budget) and `LLVMFuzzerTestOneInput` (decode,
    verify, run instruction selection). Each returns, besides its result, the
    calls it made into LLVM, in order. */
module Harness {
  import opened Wrappers
  import opened Llvm
  import opened WriteBack
  import opened Initialization

  /** How an entry point ends: it returns a status, or LLVM's fatal-error
      handler aborts the process so that libFuzzer reports a crash. */
  datatype Completion = Returned(status: int) | Escalated(message: string)

  /** The result of `LLVMFuzzerTestOneInput` and the calls it made. */
  datatype TestRun = TestRun(completion: Completion, calls: seq<Call>)

  /** The module the pipeline runs on: the decoded module retargeted to the
      target machine's normalized triple and data layout. */
  function Retarget(llvm: Collaborators, tm: TargetMachine, m: IRModule): (r: IRModule)
    ensures r.targetTriple == llvm.normalize(tm.triple)
    ensures r.dataLayout == tm.dataLayout
    ensures r.name == m.name && r.contents == m.contents
  {
    m.(targetTriple := llvm.normalize(tm.triple), dataLayout := tm.dataLayout)
  }

  /** The input gets past the reject gate: it is not degenerate, it decodes,
      and the verifier finds nothing wrong with the module. */
  predicate Accepted(llvm: Collaborators, data: seq<byte>)
    ensures Accepted(llvm, data) ==> MutationInput(llvm, data).Some?
  {
    && |data| > 1
    && llvm.decode(data).Some?
    && !llvm.isBroken(llvm.decode(data).value)
  }

  /** `LLVMFuzzerTestOneInput` on the buffer `data`. */
  function TestOneInput(llvm: Collaborators, ctx: HarnessContext, data: seq<byte>): (r: TestRun)
    requires ctx.fatalHandlerInstalled
    ensures |data| <= 1 ==> r.completion == Returned(0) && r.calls == []
    ensures |data| > 1 ==> |r.calls| >= 1 && r.calls[0] == CallDecode(data)
    ensures !Accepted(llvm, data) ==> !RanPipeline(r.calls)
    ensures |data| > 1 && !Accepted(llvm, data) <==> r.completion == Returned(1)
    ensures Accepted(llvm, data) ==>
      var m := Retarget(llvm, ctx.tm, llvm.decode(data).value);
      && r.calls[|r.calls| - 1] == CallPipeline(m, ctx.tm)
      && (llvm.runPipeline(m, ctx.tm).FatalError? <==> r.completion.Escalated?)
      && (r.completion.Escalated? ==> r.completion.message == llvm.runPipeline(m, ctx.tm).message)
      && (llvm.runPipeline(m, ctx.tm).Finished? <==> r.completion == Returned(0))
    ensures r.completion.Escalated? ==> RanPipeline(r.calls)
    ensures r.completion.Returned? ==> r.completion.status in {0, 1}
  {
    if |data| <= 1 then
      TestRun(Returned(0), [])
    else
      match llvm.decode(data)
      case None => TestRun(Returned(1), [CallDecode(data)])
      case Some(decoded) =>
        if llvm.isBroken(decoded) then
          TestRun(Returned(1), [CallDecode(data), CallVerify(decoded)])
        else
          var m := Retarget(llvm, ctx.tm, decoded);
          var calls := [CallDecode(data), CallVerify(decoded), CallPipeline(m, ctx.tm)];
          match llvm.runPipeline(m, ctx.tm)
          case Finished => TestRun(Returned(0), calls)
          case FatalError(message) => TestRun(Escalated(message), calls)
  }

  /** The pipeline runs exactly on accepted inputs, and the only call that
      can reach it is the last one. */
  lemma {:induction false} PipelineGate(llvm: Collaborators, ctx: HarnessContext, data: seq<byte>)
    requires ctx.fatalHandlerInstalled
    ensures RanPipeline(TestOneInput(llvm, ctx, data).calls) <==> Accepted(llvm, data)
    ensures var calls := TestOneInput(llvm, ctx, data).calls;
      forall i :: 0 <= i < |calls| - 1 ==> !calls[i].CallPipeline?
  {
    var r := TestOneInput(llvm, ctx, data);
    if Accepted(llvm, data) {
      assert r.calls[|r.calls| - 1].CallPipeline?;
    }
  }

  /** Why the mutator could not run. */
  datatype MutateError = UnreadableInput

  /** The result of `LLVMFuzzerCustomMutator`: the size it reports, the
      buffer's contents afterwards, and the calls it made. */
  datatype MutateRun = MutateRun(size: nat, buffer: seq<byte>, calls: seq<Call>)

  /** The module handed to the mutator: a fresh empty module for degenerate
      input, otherwise the decoded input. */
  function MutationInput(llvm: Collaborators, data: seq<byte>): (r: Option<IRModule>)
    ensures r.None? ==> |data| > 1 && llvm.decode(data).None?
    ensures |data| <= 1 ==> r.Some? && r.value.name == "M" && r.value.contents == []
    ensures |data| > 1 ==> r == llvm.decode(data)
  {
    if |data| <= 1 then Some(EmptyModule) else llvm.decode(data)
  }

  /** `LLVMFuzzerCustomMutator` on a buffer whose first `size` bytes are the
      input and whose capacity is `buf`'s length, at least `maxSize`. */
  function CustomMutator(llvm: Collaborators, ctx: HarnessContext, buf: seq<byte>, size: nat, maxSize: nat, seed: Seed)
    : (r: Result<MutateRun, MutateError>)
    requires size <= |buf| && maxSize <= |buf|
    ensures r.Failure? <==> size > 1 && llvm.decode(buf[..size]).None?
    ensures r.Success? ==> 2 <= |r.value.calls| <= 3
    ensures size <= 1 ==>
      && r.Success?
      && !Decoded(r.value.calls)
      && r.value.calls[0] == CallMutate(EmptyModule, seed, size, maxSize)
    ensures size > 1 && r.Success? ==> r.value.calls[0] == CallDecode(buf[..size])
    ensures r.Success? ==>
      var m := MutationInput(llvm, buf[..size]).value;
      var mutated := llvm.mutate(ctx.mutator, m, seed, size, maxSize);
      var wb := WriteModule(llvm.encode(mutated), buf, maxSize);
      && r.value.size == wb.size && r.value.buffer == wb.buffer
      && r.value.size <= maxSize
      && (r.value.size == 0 ==> r.value.buffer == buf)
      && r.value.buffer[r.value.size..] == buf[r.value.size..]
      && r.value.calls[|r.value.calls| - 1] == CallEncode(mutated)
  {
    var data := buf[..size];
    match MutationInput(llvm, data)
    case None => Failure(UnreadableInput)
    case Some(m) =>
      var mutated := llvm.mutate(ctx.mutator, m, seed, size, maxSize);
      var encoding := llvm.encode(mutated);
      var wb := WriteModule(encoding, buf, maxSize);
      var decodeCalls := if size <= 1 then [] else [CallDecode(data)];
      Success(MutateRun(wb.size, wb.buffer, decodeCalls + [CallMutate(m, seed, size, maxSize), CallEncode(mutated)]))
  }

  /** A mutation that fits in the budget and that the bitcode writer and
      reader round-trip reaches the pipeline when libFuzzer runs it, provided
      the verifier accepts the mutated module. */
  lemma MutantReachesPipeline(
    llvm: Collaborators, ctx: HarnessContext, buf: seq<byte>, size: nat, maxSize: nat, seed: Seed)
    requires ctx.fatalHandlerInstalled
    requires size <= |buf| && maxSize <= |buf|
    requires MutationInput(llvm, buf[..size]).Some?
    requires var mutated := llvm.mutate(ctx.mutator, MutationInput(llvm, buf[..size]).value, seed, size, maxSize);
      && llvm.decode(llvm.encode(mutated)) == Some(mutated)
      && !llvm.isBroken(mutated)
    ensures var r := CustomMutator(llvm, ctx, buf, size, maxSize, seed);
      r.Success? && r.value.size > 1 ==>
        var t := TestOneInput(llvm, ctx, r.value.buffer[..r.value.size]);
        && RanPipeline(t.calls)
        && t.calls[|t.calls| - 1].m == Retarget(llvm, ctx.tm, llvm.mutate(ctx.mutator, MutationInput(llvm, buf[..size]).value, seed, size, maxSize))
  {
    var r := CustomMutator(llvm, ctx, buf, size, maxSize, seed);
    if r.Success? && r.value.size > 1 {
      var mutated := llvm.mutate(ctx.mutator, MutationInput(llvm, buf[..size]).value, seed, size, maxSize);
      var encoding := llvm.encode(mutated);
      assert r.value.buffer[..r.value.size] == encoding;
      assert Accepted(llvm, encoding);
      PipelineGate(llvm, ctx, encoding);
    }
  }

  /** The mutate path does not run the verifier, so a mutant the verifier
      rejects is still written back; libFuzzer's next run of it stops at the
      reject gate with status 1. */
  lemma BrokenMutantIsRejected(
    llvm: Collaborators, ctx: HarnessContext, buf: seq<byte>, size: nat, maxSize: nat, seed: Seed)
    requires ctx.fatalHandlerInstalled
    requires size <= |buf| && maxSize <= |buf|
    requires MutationInput(llvm, buf[..size]).Some?
    requires var mutated := llvm.mutate(ctx.mutator, MutationInput(llvm, buf[..size]).value, seed, size, maxSize);
      && llvm.decode(llvm.encode(mutated)) == Some(mutated)
      && llvm.isBroken(mutated)
    ensures var r := CustomMutator(llvm, ctx, buf, size, maxSize, seed);
      r.Success? && r.value.size > 1 ==>
        var t := TestOneInput(llvm, ctx, r.value.buffer[..r.value.size]);
        && t.completion == Returned(1)
        && !RanPipeline(t.calls)
  {
    var r := CustomMutator(llvm, ctx, buf, size, maxSize, seed);
    if r.Success? && r.value.size > 1 {
      var mutated := llvm.mutate(ctx.mutator, MutationInput(llvm, buf[..size]).value, seed, size, maxSize);
      assert r.value.buffer[..r.value.size] == llvm.encode(mutated);
    }
  }
}

=== FILE: initialize.dfy ===
/** `LLVMFuzzerInitialize`: build the process-wide context (target machine
    and mutator) from the command line, or fail with status 1. */
module Initialization {
  import opened Wrappers
  import opened Llvm
  import CommandLine

  /** The character of `-O<c>` that names `level`. */
  function OptLevelFlag(level: CodeGenOptLevel): char {
    match level
    case NoOpt => '0'
    case Less => '1'
    case Default => '2'
    case Aggressive => '3'
  }

  /** The `-O` option's value read as a code-generation level: the four
      digit flags name their levels, an unset option means the default
      level, and every other character is rejected. */
  function ParseOptLevel(c: char): (r: Option<CodeGenOptLevel>)
    ensures r.Some? <==> c == UnsetOptLevel || '0' <= c <= '3'
    ensures r.Some? && c != UnsetOptLevel ==> OptLevelFlag(r.value) == c
    ensures c == UnsetOptLevel ==> r == Some(Default)
  {
    match c
    case ' ' => Some(Default)
    case '0' => Some(NoOpt)
    case '1' => Some(Less)
    case '2' => Some(Default)
    case '3' => Some(Aggressive)
    case _ => None
  }

  /** Every level can be asked for by its digit, and the digit reads back as
      that level. */
  lemma OptLevelRoundTrip(level: CodeGenOptLevel)
    ensures ParseOptLevel(OptLevelFlag(level)) == Some(level)
    ensures OptLevelFlag(level) != UnsetOptLevel
  {
  }

  /** The unset option and `-O2` select the same level; no other two
      accepted characters do. */
  lemma OnlyUnsetAliasesO2(c: char, d: char)
    requires ParseOptLevel(c).Some? && ParseOptLevel(c) == ParseOptLevel(d) && c != d
    ensures {c, d} == {UnsetOptLevel, '2'}
  {
  }

  /** The mutator's type catalog, in the order it is given. */
  const ISelTypes: seq<TypeTag> := [Int1, Int8, Int16, Int32, Int64, Float, Double]

  /** `createISelMutator`: the injector (over the type catalog) first, the
      instruction deleter second. */
  const ISelMutator: MutatorSetup := MutatorSetup(ISelTypes, [Injector, InstDeleter])

  /** The shared state both entry points read: the target machine and the
      mutator, plus whether the fatal-error handler that escalates pipeline
      errors has been installed. */
  datatype HarnessContext = HarnessContext(
    tm: TargetMachine,
    mutator: MutatorSetup,
    fatalHandlerInstalled: bool)

  /** Why initialization refused to start. */
  datatype InitError =
    | MissingTriple
    | UnknownTarget(message: string)
    | InvalidOptLevel(flag: char)

  /** How `LLVMFuzzerInitialize` ends: with a context to fuzz with, with
      status 1 and a reason, or with the option parser ending the process. */
  datatype InitResult =
    | Ready(ctx: HarnessContext)
    | Failed(reason: InitError)
    | Exited(code: int)
  {
    /** The status `LLVMFuzzerInitialize` returns when it returns at all. */
    function Status(): int
      requires !Exited?
    {
      if Ready? then 0 else 1
    }
  }

  /** What the option parser makes of the arguments the harness keeps. */
  function ParsedArgs(llvm: Collaborators, argv: seq<string>): ParsedOptions
    requires |argv| >= 1
  {
    llvm.parseOptions(CommandLine.KeptArgs(argv))
  }

  /** The target lookup for the parsed options: `-march` and the normalized
      `-mtriple`. */
  function LookupFor(llvm: Collaborators, opts: CLOptions): Result<(TargetId, string), string> {
    llvm.lookupTarget(opts.march, llvm.normalize(opts.triple))
  }

  /** Initialization from the process arguments `argv` (the program name
      first). The checks run in the order `LLVMFuzzerInitialize` makes
      them: the triple, then the target lookup, then the optimization
      level. */
  function Initialize(llvm: Collaborators, argv: seq<string>): (r: InitResult)
    requires |argv| >= 1
    ensures r.Exited? <==> ParsedArgs(llvm, argv).ParserExit?
    ensures r.Exited? ==> r.code == ParsedArgs(llvm, argv).code
    ensures ParsedArgs(llvm, argv).Parsed? ==> var opts := ParsedArgs(llvm, argv).opts;
      && (opts.triple == "" ==> r == Failed(MissingTriple))
      && (r.Ready? <==>
            opts.triple != ""
            && LookupFor(llvm, opts).Success?
            && ParseOptLevel(opts.optLevel).Some?)
      && (opts.triple != "" && LookupFor(llvm, opts).Failure? ==>
            r == Failed(UnknownTarget(LookupFor(llvm, opts).error)))
      && (r == Failed(InvalidOptLevel(opts.optLevel)) <==>
            opts.triple != ""
            && LookupFor(llvm, opts).Success?
            && ParseOptLevel(opts.optLevel).None?)
    ensures !r.Exited? ==> (r.Status() == 0 <==> r.Ready?)
    ensures r.Ready? ==> ParsedArgs(llvm, argv).Parsed?
    ensures r.Ready? && ParsedArgs(llvm, argv).Parsed? ==>
      var opts := ParsedArgs(llvm, argv).opts;
      && LookupFor(llvm, opts).Success?
      && r.ctx.tm.target == LookupFor(llvm, opts).value.0
      && r.ctx.tm.triple == LookupFor(llvm, opts).value.1
      && r.ctx.tm.cpu == llvm.cpuStr(opts.cpu)
      && r.ctx.tm.features == llvm.featuresStr(opts.cpu, opts.features)
      && Some(r.ctx.tm.optLevel) == ParseOptLevel(opts.optLevel)
      && r.ctx.tm.dataLayout == llvm.dataLayoutFor(r.ctx.tm.target, r.ctx.tm.triple, r.ctx.tm.cpu, r.ctx.tm.features)
      && r.ctx.mutator == ISelMutator
      && r.ctx.fatalHandlerInstalled
  {
    match ParsedArgs(llvm, argv)
    case ParserExit(code) => Exited(code)
    case Parsed(opts) =>
      if opts.triple == "" then
        Failed(MissingTriple)
      else
        match LookupFor(llvm, opts)
        case Failure(message) => Failed(UnknownTarget(message))
        case Success((target, triple)) =>
          var cpu := llvm.cpuStr(opts.cpu);
          var features := llvm.featuresStr(opts.cpu, opts.features);
          match ParseOptLevel(opts.optLevel)
          case None => Failed(InvalidOptLevel(opts.optLevel))
          case Some(level) =>
            var layout := llvm.dataLayoutFor(target, triple, cpu, features);
            var tm := TargetMachine(target, triple, cpu, features, level, layout);
            Ready(HarnessContext(tm, ISelMutator, true))
  }

  /** libFuzzer's own flags before the marker never influence start-up:
      initializing with them gives the same result as initializing without
      them. */
  lemma EngineFlagsIgnored(llvm: Collaborators, program: string, engineFlags: seq<string>, rest: seq<string>)
    requires forall j :: 0 <= j < |engineFlags| ==> engineFlags[j] != CommandLine.Marker
    ensures Initialize(llvm, [program] + engineFlags + [CommandLine.Marker] + rest)
         == Initialize(llvm, [program, CommandLine.Marker] + rest)
  {
    var argv := [program] + engineFlags + [CommandLine.Marker] + rest;
    var k := |engineFlags| + 1;
    assert forall j :: 1 <= j < k ==> argv[j] == engineFlags[j - 1];
    CommandLine.KeptArgsAfterFirstMarker(argv, k);
    assert argv[k + 1..] == rest;
    var short := [program, CommandLine.Marker] + rest;
    CommandLine.KeptArgsAfterFirstMarker(short, 1);
    assert short[2..] == rest;
  }
}

=== FILE: llvm.dfy ===
/** The LLVM side of the fuzz harness, reduced to what the harness observes.

    The harness is glue over libraries whose behaviour is not part of this
    model: the bitcode reader and writer, the IR verifier, the IR mutator, the
    target registry and the code-generation pipeline. Each of them is a field
    of `Collaborators` holding an arbitrary total function, so every property
    proved about the harness holds for every possible behaviour of those
    libraries. */
module Llvm {
  import opened Wrappers

  /** A byte of a raw fuzzer buffer (`uint8_t`). */
  type byte = bv8

  /** libFuzzer's mutation seed, an `unsigned int`. */
  type Seed = x: int | 0 <= x < 0x1_0000_0000

  /** An in-memory IR module. Only the parts the harness reads or writes are
      explicit; `contents` stands for the functions, globals and metadata that
      only the collaborators interpret. */
  datatype IRModule = IRModule(
    name: string,
    targetTriple: string,
    dataLayout: string,
    contents: seq<int>)

  /** `new Module("M", Context)`: a named module with no triple, no data
      layout and no contents. */
  const EmptyModule: IRModule := IRModule("M", "", "", [])

  /** LLVM's `CodeGenOpt::Level`. */
  datatype CodeGenOptLevel = NoOpt | Less | Default | Aggressive

  /** A target found in the registry, identified by its name. */
  datatype TargetId = TargetId(name: string)

  /** The process-wide `TargetMachine`: the normalized triple it was built
      for, its CPU and feature strings, its optimization level, and the data
      layout `createDataLayout` hands out. */
  datatype TargetMachine = TargetMachine(
    target: TargetId,
    triple: string,
    cpu: string,
    features: string,
    optLevel: CodeGenOptLevel,
    dataLayout: string)

  /** The primitive types handed to the mutator for instruction injection;
      floating-point types are tags only. */
  datatype TypeTag = Int1 | Int8 | Int16 | Int32 | Int64 | Float | Double

  /** The mutation strategies, in the order the mutator receives them. */
  datatype Strategy = Injector | InstDeleter

  /** The configuration `createISelMutator` builds the `IRMutator` from. */
  datatype MutatorSetup = MutatorSetup(types: seq<TypeTag>, strategies: seq<Strategy>)

  /** How a run of the instruction-selection pipeline ends: it finishes, or
      LLVM reports a fatal error. */
  datatype PipelineResult = Finished | FatalError(message: string)

  /** The options the command-line parser leaves behind: `-mtriple`, the
      `-O` character and the flags shared with llc (`-march`, `-mcpu`,
      `-mattr`). */
  datatype CLOptions = CLOptions(
    triple: string,
    optLevel: char,
    march: string,
    cpu: string,
    features: string)

  /** The `-O` option's initial value when it is not given. */
  const UnsetOptLevel: char := ' '

  /** What `cl::ParseCommandLineOptions` does with an argument list: it
      sets the options, or it ends the process itself (on `-help`, an
      unknown option or a malformed value) with an exit code. */
  datatype ParsedOptions = Parsed(opts: CLOptions) | ParserExit(code: int)

  /** The library functions the harness calls.
      - `decode`: `parseBitcodeFile`; `None` when the bytes are not valid bitcode.
      - `encode`: `WriteBitcodeToFile`.
      - `isBroken`: `verifyModule`, which answers true when the module is broken.
      - `mutate`: `IRMutator::mutateModule` for a mutator built from the setup,
        taking the module, the seed, the input size and the size budget.
      - `runPipeline`: running the legacy pass manager with the target library
        info pass and the passes `addPassesToEmitFile` adds for a null output.
      - `normalize`: `Triple::normalize`.
      - `parseOptions`: `cl::ParseCommandLineOptions` applied to an argument list.
      - `lookupTarget`: `TargetRegistry::lookupTarget` from `-march` and a
        triple. The triple is an in-out argument: on success the lookup
        returns the target together with the triple as it left it (`-march`
        may replace the architecture); on failure it returns a message.
      - `cpuStr`: `getCPUStr`, the CPU name for a `-mcpu` value (`native`
        stands for the host's CPU).
      - `featuresStr`: `getFeaturesStr`, the feature string for a `-mcpu`
        and a `-mattr` value (`native` adds the host's features).
      - `dataLayoutFor`: the data layout a target machine for a target,
        triple, CPU and feature string produces. */
  datatype Collaborators = Collaborators(
    decode: seq<byte> -> Option<IRModule>,
    encode: IRModule -> seq<byte>,
    isBroken: IRModule -> bool,
    mutate: (MutatorSetup, IRModule, Seed, nat, nat) -> IRModule,
    runPipeline: (IRModule, TargetMachine) -> PipelineResult,
    normalize: string -> string,
    parseOptions: seq<string> -> ParsedOptions,
    lookupTarget: (string, string) -> Result<(TargetId, string), string>,
    cpuStr: string -> string,
    featuresStr: (string, string) -> string,
    dataLayoutFor: (TargetId, string, string, string) -> string)

  /** One call from the harness to the bitcode reader or writer, the
      verifier, the mutator or the pipeline, with its arguments. */
  datatype Call =
    | CallDecode(bytes: seq<byte>)
    | CallVerify(m: IRModule)
    | CallMutate(m: IRModule, seed: Seed, size: nat, maxSize: nat)
    | CallEncode(m: IRModule)
    | CallPipeline(m: IRModule, tm: TargetMachine)

  /** True when some call in `calls` is a decode. */
  predicate Decoded(calls: seq<Call>) {
    exists i :: 0 <= i < |calls| && calls[i].CallDecode?
  }

  /** True when some call in `calls` runs the code-generation pipeline. */
  predicate RanPipeline(calls: seq<Call>) {
    exists i :: 0 <= i < |calls| && calls[i].CallPipeline?
  }
}

=== FILE: wrappers.dfy ===
/** `Option` for a lookup or a decode that may produce nothing, and `Result`
    for an operation that yields a value or fails with a described error. */
module Wrappers {

  datatype Option<+T> = None | Some(value: T)

  datatype Result<+R, +E> = Success(value: R) | Failure(error: E)
}

=== FILE: write_module.dfy ===
/** `writeModule`: encode a module and copy the encoding into the fuzzer's
    buffer, but only when it fits in the size budget. */
module WriteBack {
  import opened Llvm

  /** The reported size and the buffer's contents after a write-back. */
  datatype WriteResult = WriteResult(size: nat, buffer: seq<byte>)

  /** The write-back of `encoding` into `dest` under the budget `maxSize`.
      The caller's buffer holds at least `maxSize` bytes. */
  function WriteModule(encoding: seq<byte>, dest: seq<byte>, maxSize: nat): (r: WriteResult)
    requires maxSize <= |dest|
    ensures |r.buffer| == |dest|
    ensures r.size <= maxSize
    ensures |encoding| > maxSize ==> r.size == 0 && r.buffer == dest
    ensures |encoding| <= maxSize ==> r.size == |encoding|
    ensures forall i :: 0 <= i < r.size && i < |encoding| && i < |r.buffer| ==> r.buffer[i] == encoding[i]
    ensures forall i :: r.size <= i < |r.buffer| && i < |dest| ==> r.buffer[i] == dest[i]
  {
    if |encoding| > maxSize then
      WriteResult(0, dest)
    else
      WriteResult(|encoding|, encoding + dest[|encoding|..])
  }

  /** The in-place form: `memcpy` of the encoding into the prefix of `dest`,
      written as a byte-by-byte copy. */
  method WriteModuleInPlace(encoding: seq<byte>, dest: array<byte>, maxSize: nat) returns (n: nat)
    requires maxSize <= dest.Length
    modifies dest
    ensures n <= maxSize
    ensures n == WriteModule(encoding, old(dest[..]), maxSize).size
    ensures dest[..] == WriteModule(encoding, old(dest[..]), maxSize).buffer
  {
    if |encoding| > maxSize {
      return 0;
    }
    var i := 0;
    while i < |encoding|
      invariant 0 <= i <= |encoding|
      invariant dest[..i] == encoding[..i]
      invariant dest[i..] == old(dest[i..])
    {
      dest[i] := encoding[i];
      i := i + 1;
    }
    assert dest[..] == dest[..i] + dest[i..];
    n := |encoding|;
  }

  /** The reported size is positive exactly when a non-empty encoding fit, and
      then the written prefix reads back as the encoding. */
  lemma WrittenPrefixIsEncoding(encoding: seq<byte>, dest: seq<byte>, maxSize: nat)
    requires maxSize <= |dest|
    ensures var r := WriteModule(encoding, dest, maxSize);
      (r.size > 0 <==> 0 < |encoding| <= maxSize) &&
      (r.size > 0 ==> r.buffer[..r.size] == encoding)
  {
  }

  /** The write-back is pinned down by its contract: any buffer that has the
      encoding as its prefix and `dest`'s bytes after it is the one written. */
  lemma {:induction false} WriteModuleUnique(encoding: seq<byte>, dest: seq<byte>, maxSize: nat, other: seq<byte>)
    requires |encoding| <= maxSize <= |dest|
    requires |other| == |dest|
    requires other[..|encoding|] == encoding
    requires other[|encoding|..] == dest[|encoding|..]
    ensures other == WriteModule(encoding, dest, maxSize).buffer
  {
    var r := WriteModule(encoding, dest, maxSize);
    assert other == other[..|encoding|] + other[|encoding|..];
    assert r.buffer == r.buffer[..|encoding|] + r.buffer[|encoding|..];
  }
}
